=== FILE: README.md ===
# grafici-mercati: the price-consolidation pipeline in Dafny

The repository holds three near-duplicate scripts that list the most active
tickers, download one year of daily open/high/low/close prices for each,
consolidate the result into one table written as a CSV file, and draw one
candlestick chart per ticker. This project models the pure data logic that
sits between the download and the drawing calls, for all three scripts:

- **Row normalizer** (`Rows`, `Downloads.NormalizeTable`): the four price
  columns are coerced to numbers; a cell that cannot be read becomes the
  missing marker `Bad`; every row with a missing marker is dropped; the
  survivors keep their order and values and are tagged with the ticker.
- **Per-ticker loop and consolidator** (`ProvaClaude`, `ScrapingAndGraph`,
  `ProgettoCompleto`, `Consolidation`): what each script does with a
  download (skip it, keep it, or stop the run), the concatenation of the
  kept tables in ticker order, and the fatal guards.
- **Candle geometry** (`Candles`, `*.Chart`): each ticker's slice of the
  dataset sorted by date, the colour (green iff close >= open), and the
  wick and body values handed to the plotting library.

The three scripts differ, and the model keeps the differences:

| script | fetch raises | empty table / missing column / no valid row | no ticker left | candles |
|---|---|---|---|---|
| provaclaude.py | ticker skipped | ticker skipped | fatal `NoValidData` | one wick low..high, body width 0.6 |
| scrapingandgraph.py | run stops | ticker skipped | fatal `NoValidData` | library call, not modelled |
| progettoinformaticacompleto.py | run stops | a missing price column stops the run; otherwise the ticker is appended, possibly with zero rows | an empty ticker list makes the concatenation fail; no Date column in any table fails the date conversion | upper and lower wick, body width 1.7 |

A download is a ticker plus `Fetched(table)` or `Raised`. A table is its set
of column names plus its rows; a date is a day number; a price cell is
`Num(real)` or `Bad`. `Downloads.Contribution` is a skip-free reference for
what one download adds to the dataset, and each script's `Run` is proved
equal to the concatenation of contributions (or to its fatal error). From
that, the model proves that provaclaude.py and scrapingandgraph.py write the
same dataset whenever no fetch raises, that progettoinformaticacompleto.py
writes the same dataset as provaclaude.py whenever every table arrives whole
and some row is valid, and that it writes an empty dataset where
provaclaude.py stops (when the tables carry a Date column).

## Model

| member | source | states |
|---|---|---|
| Rows.ValidRows | provaclaude.py:86-91 | the drop step never adds rows, and a row is kept exactly when it is the unchanged conversion of some row whose four prices are all numbers |
| Rows.Survivors | provaclaude.py:86-91 | the kept rows sit at strictly increasing positions, these are exactly the rows whose four price cells are all numbers, and each kept row carries that raw row's values unchanged |
| Rows.NoSurvivors | provaclaude.py:90-95 | nothing survives the drop step exactly when no row has all four prices numeric |
| Rows.ValidRowsAppend | provaclaude.py:90-91 | dropping rows distributes over concatenation, so rows are never reordered |
| Rows.Tag | provaclaude.py:97 | tagging keeps the validated rows as they are and gives every one of them the ticker |
| Consolidation.Flatten | provaclaude.py:112 | the concatenation has as many rows as the tables together, and holds exactly the rows of the tables |
| Consolidation.NonEmptyTables | provaclaude.py:93-98 | dropping the empty tables never adds tables, leaves none empty and does not change the concatenation |
| Consolidation.NonEmptyPositions | provaclaude.py:93-98 | the kept tables are taken from strictly increasing positions, each one unchanged, so no two are merged or reordered; with NonEmptyPositionsCover, every non-empty table is among them |
| Consolidation.NonEmptyPositionsCover | provaclaude.py:93-98 | every non-empty table's position is listed, so no table with rows is dropped |
| Consolidation.Concat | progettoinformaticacompleto.py:86 | concatenation fails exactly for an empty list of tables; otherwise its row count is the sum of the table sizes, the first table comes first, and it holds exactly the tables' rows |
| Consolidation.Select | provaclaude.py:127 | a ticker's slice holds exactly the dataset's rows with that ticker |
| Consolidation.SelectAppend | provaclaude.py:127 | slicing by ticker commutes with concatenation, so the slice keeps dataset order |
| Consolidation.SelectUniform | provaclaude.py:127 | slicing a table whose rows all carry one ticker gives the whole table for that ticker and nothing for any other |
| Consolidation.Tickers | provaclaude.py:125 | the tickers the drawing loop visits have no repeats, a ticker is visited exactly when some row of the dataset carries it, and they come in order of first appearance |
| Consolidation.SelectAbsent | provaclaude.py:127 | slicing a ticker that no row carries gives nothing |
| Consolidation.SelectNonEmpty | provaclaude.py:125-127 | every ticker the drawing loop visits has at least one row in its slice, so no chart is empty |
| Candles.BodyOf | provaclaude.py:147-149 | the body stands on the lower of open and close, its non-negative height reaches the higher one, its colour is green iff close >= open, and open and close can be read back from it |
| Candles.CandleOf | provaclaude.py:144-149 | the single-wick candle gives back its row, has body width 0.6, and its body lies within the low..high wick exactly when low <= open, close <= high |
| Candles.SplitCandleOf | progettoinformaticacompleto.py:117-125 | the split candle gives back its row, has body width 1.7, the lower wick starts at low and ends at the body's bottom, the upper wick starts at the body's top and ends at high, and the pieces run upwards (so tile [low, high] exactly) iff the row is consistent |
| Candles.Insert | provaclaude.py:128 | inserting into a date-sorted sequence keeps it sorted and adds exactly the one row |
| Candles.SortByDate | provaclaude.py:128 | the result is ascending by date and a permutation of the input |
| Downloads.NormalizeTable | scrapingandgraph.py:52-82 | a table is kept iff it has rows, has every required column and has an all-numeric row; each skip reason (no rows, missing columns, no valid rows) holds exactly when its own check is the first to fail; a kept table is exactly the download's contribution, non-empty, and a skipped one contributes nothing |
| Downloads.ContributionShape | provaclaude.py:81-98 | a download contributes rows iff its table arrived with the required columns and a valid row, and every contributed row carries its ticker and one of its valid rows |
| Downloads.FlattenedTags | provaclaude.py:97-112 | every concatenated row comes from a download with the same ticker and is one of its valid rows |
| Downloads.FlattenedEmpty | provaclaude.py:108-112 | the concatenated contributions are empty iff no download contributes |
| Downloads.FlattenedTickers | provaclaude.py:93-125 | the tickers of the concatenation are exactly those of downloads that contribute a row |
| Downloads.FlattenedSelect | provaclaude.py:112-127 | with distinct tickers, a ticker's slice of the concatenation is exactly its download's contribution, in order |
| ProvaClaude.NormalizeTicker | provaclaude.py:59-103 | the fetch-failure skip reason is given exactly when the fetch raised; a kept ticker adds exactly its contribution and at least one row; a skipped one would have added nothing |
| ProvaClaude.Collect | provaclaude.py:56-103 | the kept tables are exactly the non-empty contributions, one per kept ticker, in ticker order; none is empty, and together they hold every contributed row |
| ProvaClaude.Run | provaclaude.py:108-114 | the run stops with NoValidData exactly when no download contributes a row; otherwise the dataset is every contribution concatenated in ticker order |
| ProvaClaude.RunTags | provaclaude.py:97-112 | every dataset row carries the ticker it was fetched for and is one of that ticker's valid rows |
| ProvaClaude.RunSlice | provaclaude.py:125-127 | with distinct tickers, a kept ticker's slice is exactly the rows the loop kept for it, and a skipped ticker's slice is empty |
| ProvaClaude.RunTickers | provaclaude.py:93-125 | the tickers drawn are exactly those the loop kept |
| ProvaClaude.Chart | provaclaude.py:127-149 | the candles run in ascending date order, one per row of the ticker's slice, and read back to a permutation of that slice; each is green iff close >= open and has the whole single-wick geometry of its row, body width 0.6 included |
| ProvaClaude.OneRowChart | provaclaude.py:127-149 | a ticker with one row in the dataset is drawn as exactly that row's single candle |
| ProvaClaudeExamples.MixedTickers | provaclaude.py:86-112 | a ticker with one valid and one non-numeric row and a ticker with only invalid rows give a one-row dataset tagged with the first ticker, whose chart is that row's single green candle |
| ProvaClaudeExamples.NothingSurvives | provaclaude.py:101-110 | a raised fetch and an empty table leave nothing, and the run stops with NoValidData |
| ScrapingAndGraph.Collect | scrapingandgraph.py:43-82 | the loop succeeds iff no fetch raises, then keeps exactly the tables provaclaude.py keeps; otherwise it reports the first raised fetch |
| ScrapingAndGraph.Run | scrapingandgraph.py:87-92 | with no raised fetch the run equals provaclaude.py's; any raised fetch stops it, reporting the first one |
| ProgettoCompleto.NormalizeTicker | progettoinformaticacompleto.py:59-81 | a download succeeds iff its table arrived with the four price columns; then its rows are exactly the valid rows, all tagged, possibly none |
| ProgettoCompleto.Collect | progettoinformaticacompleto.py:55-81 | the loop succeeds iff every download is usable, appending exactly one table per ticker, empty ones included; otherwise it reports the first failure |
| ProgettoCompleto.Run | progettoinformaticacompleto.py:86-90 | the run succeeds iff there is a ticker, every download is usable and some table has a Date column; an empty list fails the concatenation, an unusable download reports the first failure, and a Date-less concatenation fails the date conversion; the dataset is every contribution in order, its row count the sum of theirs |
| ProgettoCompleto.RunTags | progettoinformaticacompleto.py:80-86 | every dataset row carries the ticker it was fetched for and is one of that ticker's valid rows |
| ProgettoCompleto.RunTickers | progettoinformaticacompleto.py:77-96 | a ticker is drawn iff one of its rows survived, so a ticker appended with no rows is never drawn |
| ProgettoCompleto.AgreesWithProvaClaude | progettoinformaticacompleto.py:55-87 | with every table arrived whole and some valid row, the dataset equals provaclaude.py's |
| ProgettoCompleto.WritesEmptyDataset | progettoinformaticacompleto.py:77-90 | with usable tables, one of them with a Date column, and no valid row anywhere, this script writes an empty dataset where provaclaude.py stops with NoValidData |
| ProgettoCompleto.Chart | progettoinformaticacompleto.py:98-125 | the split candles run in ascending date order, one per row of the ticker's slice, and read back to a permutation of that slice; each is green iff close >= open and has the whole split-wick geometry of its row, body width 1.7 included |

## Differences between the scripts worth knowing

- No script checks dates. Only the four price cells decide whether a row survives.
- Only provaclaude.py catches a failed fetch. In the other two scripts it ends the run.
- progettoinformaticacompleto.py appends a ticker even when none of its rows survive. That ticker adds nothing to the dataset and is never drawn.
- All three scripts convert the Date column only after concatenation. provaclaude.py and scrapingandgraph.py skip any table that lacks a Date column. progettoinformaticacompleto.py lists the column names but never checks them. So when no fetched table has a Date column, its Date lookup ends the run before the CSV is written.
- progettoinformaticacompleto.py draws an upper and a lower wick around the body. It never checks that low <= min(open, close) and max(open, close) <= high.

## Left out

- Scraping the ticker list from the listing page: network and an HTML parser. Tickers are given as a sequence of strings.
- The history download, its one-year date window and the pause between requests: a remote call and a timing delay. Each fetch result is an input.
- Multi-level column flattening and `reset_index`: structural quirks of the data library. Tables have flat column names.
- The string-to-number rules of numeric coercion and the date conversion after concatenation: library parsing. They are the `Num`/`Bad` cell and the integer day number.
- Columns other than Date, Open, High, Low, Close and Ticker (volume, adjusted close): they ride along into the CSV untouched and affect nothing modelled.
- Writing the CSV, creating directories, drawing, saving and closing figures, and the chart titles: I/O and foreign calls. Only the values passed to the drawing calls are modelled.
- The chart of scrapingandgraph.py: `candlestick_ohlc` and `date2num` are foreign calls, and the script passes the unsorted slice to them.
- The handler around each chart in provaclaude.py: the modelled geometry cannot fail, so there is nothing for it to catch.
- Prints and progress messages.
- Floating point: prices are reals; rounding, infinities and NaN propagation are not modelled.
- The emptiness test of a fetched table is modelled as "has no rows". A table with rows but no columns is skipped by the column check instead, with the same effect on the dataset.
- ProgettoCompleto.NormalizeTicker: a table without a Date column is processed like any other. When at least one other table has a Date column, the script's conversion turns the missing dates into "not a time" values; the model keeps rows dated by day numbers and does not represent those values. When no table has a Date column, Run returns MissingDateColumn.
- Candles.SortByDate: promises an ascending, row-for-row permutation only. The library's default sort is not stable, so the order among rows with equal dates is left open.
- test_eugov.py: a single HTTP fetch of statistics into a table, with no logic of its own.

=== FILE: candles.dfy ===
/**
 The candlestick renderer's pure part: the ascending date sort applied to
 one ticker's rows, the candle colour, and the geometry handed to the
 plotting library, in the two shapes the scripts use (one low-to-high wick,
 or an upper and a lower wick around the body).
 */
module Candles {
  import opened Prices

  datatype Color = Green | Red

  /** A vertical line at a candle's date, drawn from one price to another. */
  datatype Segment = Segment(from: real, to: real)

  /** A bar standing on `bottom`, `height` tall and `width` wide (in days). */
  datatype Body = Body(bottom: real, height: real, width: real, color: Color)

  /** One candle with a single wick over the whole range. */
  datatype Candle = Candle(date: Date, wick: Segment, body: Body)

  /** One candle with a wick above and a wick below the body. */
  datatype SplitCandle = SplitCandle(date: Date, upper: Segment, lower: Segment, body: Body)

  /** Body width of the single-wick renderer. */
  const NarrowWidth: real := 0.6

  /** Body width of the split-wick renderer. */
  const WideWidth: real := 1.7

  function Min(a: real, b: real): real { if a <= b then a else b }

  function Max(a: real, b: real): real { if a <= b then b else a }

  function Abs(x: real): real { if x < 0.0 then -x else x }

  /** The row's low is at or below both open and close, and its high at or above both. */
  predicate Consistent(p: PriceRow)
  {
    p.low <= p.open && p.low <= p.close && p.open <= p.high && p.close <= p.high
  }

  /** A candle is green when it closed at or above its open, ties included. */
  function ColorOf(open: real, close: real): (c: Color)
    ensures c == Green <==> close >= open
  {
    if close >= open then Green else Red
  }

  /** Recovers (open, close) from a body: a green body opens at its bottom,
      a red one closes there. */
  function OpenClose(b: Body): (real, real)
  {
    if b.color == Green then (b.bottom, b.bottom + b.height) else (b.bottom + b.height, b.bottom)
  }

  /** The body between open and close: it stands on the lower of the two,
      reaches the higher one, and together with its colour loses nothing. */
  function BodyOf(open: real, close: real, width: real): (b: Body)
    ensures b.height >= 0.0
    ensures b.bottom <= open && b.bottom <= close && (b.bottom == open || b.bottom == close)
    ensures b.bottom + b.height >= open && b.bottom + b.height >= close
    ensures b.bottom + b.height == open || b.bottom + b.height == close
    ensures b.color == Green <==> close >= open
    ensures b.width == width
    ensures OpenClose(b) == (open, close)
  {
    Body(Min(open, close), Abs(close - open), width, ColorOf(open, close))
  }

  /** Reads a row back from a single-wick candle. */
  function RowOfCandle(c: Candle): PriceRow
  {
    var (open, close) := OpenClose(c.body);
    PriceRow(c.date, open, c.wick.to, c.wick.from, close)
  }

  /** The single-wick candle: a wick from low to high, the body of width 0.6;
      the body lies within the wick exactly when the row is consistent. */
  function CandleOf(p: PriceRow): (c: Candle)
    ensures RowOfCandle(c) == p
    ensures c.body.width == NarrowWidth
    ensures c.body.color == Green <==> p.close >= p.open
    ensures (c.wick.from <= c.body.bottom && c.body.bottom + c.body.height <= c.wick.to) <==> Consistent(p)
  {
    Candle(p.date, Segment(p.low, p.high), BodyOf(p.open, p.close, NarrowWidth))
  }

  /** Reads a row back from a split-wick candle. */
  function RowOfSplitCandle(c: SplitCandle): PriceRow
  {
    var (open, close) := OpenClose(c.body);
    PriceRow(c.date, open, c.upper.to, c.lower.from, close)
  }

  /** The split-wick candle: an upper wick from the body's top to the high, a
      lower wick from the low to the body's bottom, a body of width 1.7. The
      pieces always meet end to end; they run upwards, and so tile [low, high]
      exactly, when and only when the row is consistent. */
  function SplitCandleOf(p: PriceRow): (c: SplitCandle)
    ensures RowOfSplitCandle(c) == p
    ensures c.body.width == WideWidth
    ensures c.body.color == Green <==> p.close >= p.open
    ensures c.lower.from == p.low && c.upper.to == p.high
    ensures c.lower.to == c.body.bottom && c.body.bottom + c.body.height == c.upper.from
    ensures (c.lower.from <= c.lower.to && c.upper.from <= c.upper.to) <==> Consistent(p)
  {
    var b := BodyOf(p.open, p.close, WideWidth);
    SplitCandle(p.date, Segment(b.bottom + b.height, p.high), Segment(p.low, b.bottom), b)
  }

  /** Rows in ascending date order. */
  predicate SortedByDate(s: seq<PriceRow>)
  {
    forall i, j :: 0 <= i < j < |s| ==> s[i].date <= s[j].date
  }

  /** A row dated no later than the head of a sorted sequence can go in front of it. */
  lemma SortedCons(x: PriceRow, s: seq<PriceRow>)
    requires SortedByDate(s)
    requires |s| > 0 ==> x.date <= s[0].date
    ensures SortedByDate([x] + s)
  {
    var r := [x] + s;
    forall i, j | 0 <= i < j < |r|
      ensures r[i].date <= r[j].date
    {
      if i > 0 {
        assert r[i] == s[i - 1] && r[j] == s[j - 1];
      } else {
        assert r[j] == s[j - 1];
      }
    }
  }

  /** Puts one row into a date-sorted sequence. */
  function Insert(p: PriceRow, s: seq<PriceRow>): (r: seq<PriceRow>)
    requires SortedByDate(s)
    ensures SortedByDate(r)
    ensures multiset(r) == multiset(s) + multiset{p}
    ensures |r| == |s| + 1
    ensures r[0] == p || (|s| > 0 && r[0] == s[0])
  {
    if |s| == 0 then [p]
    else if p.date <= s[0].date then
      SortedCons(p, s);
      [p] + s
    else
      var rest := Insert(p, s[1..]);
      assert s == [s[0]] + s[1..];
      SortedCons(s[0], rest);
      [s[0]] + rest
  }

  /** One ticker's rows sorted ascending by date: same rows, same multiplicities. */
  function SortByDate(s: seq<PriceRow>): (r: seq<PriceRow>)
    ensures SortedByDate(r)
    ensures multiset(r) == multiset(s)
  {
    if |s| == 0 then []
    else
      assert s == [s[0]] + s[1..];
      Insert(s[0], SortByDate(s[1..]))
  }
}

=== FILE: consolidation.dfy ===
/**
 The consolidator: concatenation of the per-ticker tables in arrival order,
 and the two views the renderer takes of the result, the rows of one ticker
 and the distinct tickers in order of first appearance.
 */
module Consolidation {
  import opened Results
  import opened Prices

  /** The sum of the row counts of the tables. */
  function TotalRows(tables: seq<seq<TaggedRow>>): nat
  {
    if |tables| == 0 then 0 else |tables[0]| + TotalRows(tables[1..])
  }

  /** Every table's rows are counted in the total. */
  lemma {:induction false} TotalRowsCovers(tables: seq<seq<TaggedRow>>, i: nat)
    requires i < |tables|
    ensures TotalRows(tables) >= |tables[i]|
  {
    if i > 0 {
      TotalRowsCovers(tables[1..], i - 1);
    }
  }

  /** The tables one after the other, each keeping its own row order. */
  function Flatten(tables: seq<seq<TaggedRow>>): (r: seq<TaggedRow>)
    ensures |r| == TotalRows(tables)
    ensures forall x :: x in r <==> exists i :: 0 <= i < |tables| && x in tables[i]
  {
    if |tables| == 0 then []
    else
      var rest := Flatten(tables[1..]);
      assert forall x :: (exists i :: 1 <= i < |tables| && x in tables[i]) ==> x in rest by {
        forall x | exists i :: 1 <= i < |tables| && x in tables[i]
          ensures x in rest
        {
          var i :| 1 <= i < |tables| && x in tables[i];
          assert tables[1..][i - 1] == tables[i];
        }
      }
      tables[0] + rest
  }

  /** The non-empty tables, in their original order: dropping the empty
      ones changes neither the concatenation nor the order of the others. */
  function NonEmptyTables(tables: seq<seq<TaggedRow>>): (r: seq<seq<TaggedRow>>)
    ensures |r| <= |tables|
    ensures forall i :: 0 <= i < |r| ==> |r[i]| > 0
    ensures Flatten(r) == Flatten(tables)
  {
    if |tables| == 0 then []
    else
      var rest := NonEmptyTables(tables[1..]);
      if tables[0] == [] then rest
      else
        assert ([tables[0]] + rest)[1..] == rest;
        [tables[0]] + rest
  }

  /** The positions of the tables that survive the filter: strictly
      increasing, and the k-th kept table is the table at the k-th
      position, unchanged. `NonEmptyPositionsCover` shows that every
      non-empty table is among them. */
  function NonEmptyPositions(tables: seq<seq<TaggedRow>>): (idx: seq<nat>)
    ensures |idx| == |NonEmptyTables(tables)|
    ensures forall k :: 0 <= k < |idx| ==>
              idx[k] < |tables| && NonEmptyTables(tables)[k] == tables[idx[k]]
    ensures forall k, l :: 0 <= k < l < |idx| ==> idx[k] < idx[l]
  {
    if |tables| == 0 then []
    else
      var rest := NonEmptyPositions(tables[1..]);
      var shifted := Shift(rest);
      ShiftedPositions(tables, rest, shifted);
      if tables[0] == [] then
        assert NonEmptyTables(tables) == NonEmptyTables(tables[1..]);
        shifted
      else
        assert NonEmptyTables(tables) == [tables[0]] + NonEmptyTables(tables[1..]);
        KeptHead(tables, NonEmptyTables(tables[1..]), shifted);
        [0] + shifted
  }

  /** Every position moved up by one. */
  function Shift(rest: seq<nat>): (r: seq<nat>)
    ensures |r| == |rest|
    ensures forall k :: 0 <= k < |rest| ==> r[k] == rest[k] + 1
  {
    seq(|rest|, k requires 0 <= k < |rest| => rest[k] + 1)
  }

  /** The positions found in the tail, moved up by one, are the positions
      of the non-empty tables after the head. */
  lemma ShiftedPositions(tables: seq<seq<TaggedRow>>, rest: seq<nat>, shifted: seq<nat>)
    requires |tables| > 0
    requires rest == NonEmptyPositions(tables[1..])
    requires shifted == Shift(rest)
    ensures |shifted| == |NonEmptyTables(tables[1..])|
    ensures forall k :: 0 <= k < |shifted| ==>
              0 < shifted[k] < |tables| && NonEmptyTables(tables[1..])[k] == tables[shifted[k]]
    ensures forall k, l :: 0 <= k < l < |shifted| ==> shifted[k] < shifted[l]
  {
    var tail := tables[1..];
    var kept := NonEmptyTables(tail);
    forall k | 0 <= k < |shifted|
      ensures 0 < shifted[k] < |tables| && kept[k] == tables[shifted[k]]
    {
      assert tail[rest[k]] == tables[rest[k] + 1];
    }
  }

  /** One step of the position list: the tail's positions moved up by one,
      behind position 0 when the head table is non-empty. */
  lemma PositionsStep(tables: seq<seq<TaggedRow>>)
    requires |tables| > 0
    ensures NonEmptyPositions(tables) ==
            (if tables[0] == [] then [] else [0]) + Shift(NonEmptyPositions(tables[1..]))
  {
  }

  /** Every non-empty table is kept: its position is listed. */
  lemma {:induction false} NonEmptyPositionsCover(tables: seq<seq<TaggedRow>>, i: nat)
    requires i < |tables| && tables[i] != []
    ensures i in NonEmptyPositions(tables)
  {
    PositionsStep(tables);
    var head: seq<nat> := if tables[0] == [] then [] else [0];
    var shifted := Shift(NonEmptyPositions(tables[1..]));
    assert NonEmptyPositions(tables) == head + shifted;
    if i == 0 {
      assert NonEmptyPositions(tables)[0] == 0;
    } else {
      assert tables[1..][i - 1] == tables[i];
      NonEmptyPositionsCover(tables[1..], i - 1);
      var rest := NonEmptyPositions(tables[1..]);
      var k :| 0 <= k < |rest| && rest[k] == i - 1;
      assert shifted[k] == i;
      assert i in shifted;
      assert forall x :: x in shifted ==> x in head + shifted;
    }
  }

  /** When the head table is kept, position 0 in front of the shifted tail
      positions indexes the head followed by the kept tail tables. */
  lemma KeptHead(tables: seq<seq<TaggedRow>>, tail: seq<seq<TaggedRow>>, shifted: seq<nat>)
    requires |tables| > 0
    requires |shifted| == |tail|
    requires forall k :: 0 <= k < |shifted| ==> 0 < shifted[k] < |tables| && tail[k] == tables[shifted[k]]
    requires forall k, l :: 0 <= k < l < |shifted| ==> shifted[k] < shifted[l]
    ensures forall k :: 0 <= k < |[0] + shifted| ==>
              ([0] + shifted)[k] < |tables| && ([tables[0]] + tail)[k] == tables[([0] + shifted)[k]]
    ensures forall k, l :: 0 <= k < l < |[0] + shifted| ==> ([0] + shifted)[k] < ([0] + shifted)[l]
  {
    var idx := [0] + shifted;
    var kept := [tables[0]] + tail;
    forall k | 1 <= k < |idx|
      ensures idx[k] < |tables| && kept[k] == tables[idx[k]]
    {
      assert idx[k] == shifted[k - 1];
      assert kept[k] == tail[k - 1];
    }
    forall k, l | 0 <= k < l < |idx|
      ensures idx[k] < idx[l]
    {
      assert idx[l] == shifted[l - 1];
      if k > 0 {
        assert idx[k] == shifted[k - 1];
      }
    }
  }

  /** Concatenation of a list of tables, which has no result for an empty list. */
  function Concat(tables: seq<seq<TaggedRow>>): (r: Option<seq<TaggedRow>>)
    ensures r.None? <==> |tables| == 0
    ensures r.Some? ==> |r.value| == TotalRows(tables)
    ensures r.Some? ==> r.value[..|tables[0]|] == tables[0]
    ensures r.Some? ==> forall x :: x in r.value <==> exists i :: 0 <= i < |tables| && x in tables[i]
  {
    if |tables| == 0 then None else Some(Flatten(tables))
  }

  /** The rows carrying one ticker, in dataset order. */
  function Select(rows: seq<TaggedRow>, ticker: string): (r: seq<TaggedRow>)
    ensures forall x :: x in r <==> x in rows && x.ticker == ticker
    ensures |r| <= |rows|
  {
    if |rows| == 0 then []
    else (if rows[0].ticker == ticker then [rows[0]] else []) + Select(rows[1..], ticker)
  }

  /** Selecting one ticker commutes with concatenation. */
  lemma {:induction false} SelectAppend(a: seq<TaggedRow>, b: seq<TaggedRow>, ticker: string)
    ensures Select(a + b, ticker) == Select(a, ticker) + Select(b, ticker)
  {
    if |a| == 0 {
      assert a + b == b;
    } else {
      assert (a + b)[0] == a[0];
      assert (a + b)[1..] == a[1..] + b;
      SelectAppend(a[1..], b, ticker);
    }
  }

  /** A table whose every row carries one ticker: selecting that ticker gives
      it back whole, selecting any other gives nothing. */
  lemma {:induction false} SelectUniform(rows: seq<TaggedRow>, tag: string, ticker: string)
    requires forall k :: 0 <= k < |rows| ==> rows[k].ticker == tag
    ensures Select(rows, ticker) == if tag == ticker then rows else []
  {
    if |rows| > 0 {
      SelectUniform(rows[1..], tag, ticker);
      if tag == ticker {
        assert [rows[0]] + rows[1..] == rows;
      }
    }
  }

  /** The distinct tickers of the dataset in order of first appearance: each
      listed ticker occurs in some row before any row of a ticker listed later. */
  function Tickers(rows: seq<TaggedRow>): (u: seq<string>)
    ensures forall i, j :: 0 <= i < j < |u| ==> u[i] != u[j]
    ensures forall t :: t in u <==> exists k :: 0 <= k < |rows| && rows[k].ticker == t
    ensures forall i, j :: 0 <= i < j < |u| ==> AppearsBefore(rows, u[i], u[j])
  {
    if |rows| == 0 then []
    else
      var prefix := rows[..|rows| - 1];
      var last := rows[|rows| - 1];
      var u := Tickers(prefix);
      assert rows == prefix + [last];
      assert forall k :: 0 <= k < |prefix| ==> prefix[k] == rows[k];
      forall a, b | AppearsBefore(prefix, a, b)
        ensures AppearsBefore(rows, a, b)
      {
        AppearsBeforeExtend(prefix, last, a, b);
      }
      if last.ticker in u then u
      else
        forall a | a in u
          ensures AppearsBefore(rows, a, last.ticker)
        {
          var k :| 0 <= k < |prefix| && prefix[k].ticker == a;
          assert AbsentUpTo(rows, k, last.ticker);
        }
        u + [last.ticker]
  }

  /** No row at positions 0..k carries the ticker. */
  predicate AbsentUpTo(rows: seq<TaggedRow>, k: nat, ticker: string)
    requires k < |rows|
  {
    forall l :: 0 <= l <= k ==> rows[l].ticker != ticker
  }

  /** Some row carries `a` before any row carries `b`. */
  predicate AppearsBefore(rows: seq<TaggedRow>, a: string, b: string)
  {
    exists k :: 0 <= k < |rows| && rows[k].ticker == a && AbsentUpTo(rows, k, b)
  }

  /** Appending a row keeps an earlier first appearance earlier. */
  lemma AppearsBeforeExtend(rows: seq<TaggedRow>, x: TaggedRow, a: string, b: string)
    requires AppearsBefore(rows, a, b)
    ensures AppearsBefore(rows + [x], a, b)
  {
    var k :| 0 <= k < |rows| && rows[k].ticker == a && AbsentUpTo(rows, k, b);
    assert (rows + [x])[k] == rows[k];
    assert AbsentUpTo(rows + [x], k, b);
  }

  /** Slicing a ticker no row carries gives nothing. */
  lemma {:induction false} SelectAbsent(rows: seq<TaggedRow>, ticker: string)
    requires forall k :: 0 <= k < |rows| ==> rows[k].ticker != ticker
    ensures Select(rows, ticker) == []
  {
    if |rows| > 0 {
      SelectAbsent(rows[1..], ticker);
    }
  }

  /** A ticker of the dataset has at least one row to draw. */
  lemma SelectNonEmpty(rows: seq<TaggedRow>, ticker: string)
    requires ticker in Tickers(rows)
    ensures |Select(rows, ticker)| > 0
  {
    var k :| 0 <= k < |rows| && rows[k].ticker == ticker;
    assert rows[k] in Select(rows, ticker);
  }
}

=== FILE: downloads.dfy ===
/**
 The boundary with the history fetch, the fatal errors that end a run, the
 per-table checks shared by the two skipping scripts, and a skip-free
 reference for what one download adds to the consolidated dataset.
 */
module Downloads {
  import opened Prices
  import opened Rows
  import opened Consolidation

  /** What the history fetch gave for one ticker: a table, or an exception. */
  datatype Fetch = Fetched(table: RawTable) | Raised

  /** One ticker of the listing together with its fetch result. */
  datatype Download = Download(ticker: string, fetch: Fetch)

  /** Why a skipping script passed over a ticker. */
  datatype SkipReason = FetchFailed | NoData | MissingColumns | NoValidRows

  /** What the per-ticker loop did with one download. */
  datatype Outcome = Kept(rows: seq<TaggedRow>) | Skipped(reason: SkipReason)

  /** The errors that end a run before the dataset is written. */
  datatype Fatal =
    | NoValidData                      // no ticker survived normalization
    | UncaughtFetchError(ticker: string) // the fetch raised outside any handler
    | MissingPriceColumn(ticker: string) // a price column was looked up and absent
    | NothingToConcatenate             // concatenation was given an empty list
    | MissingDateColumn                // the concatenated table has no Date column to convert

  /** The tagged valid rows a download adds when its table arrived with the
      `required` columns, and nothing otherwise. */
  function Contribution(d: Download, required: set<string>): seq<TaggedRow>
  {
    if d.fetch.Fetched? && required <= d.fetch.table.columns
    then Tag(ValidRows(d.fetch.table.rows), d.ticker)
    else []
  }

  function Contributions(ds: seq<Download>, required: set<string>): seq<seq<TaggedRow>>
  {
    seq(|ds|, i requires 0 <= i < |ds| => Contribution(ds[i], required))
  }

  /** The checks both skipping scripts run on a table that arrived: skip it
      when it has no rows, lacks a required column or has no all-numeric row;
      otherwise keep its valid rows, tagged. What is kept is exactly the
      table's contribution, and a skipped table contributes nothing. */
  function NormalizeTable(ticker: string, t: RawTable): (o: Outcome)
    ensures o.Kept? <==>
              && |t.rows| > 0
              && RequiredColumns <= t.columns
              && exists i :: 0 <= i < |t.rows| && AllNumeric(t.rows[i])
    ensures o == Skipped(NoData) <==> |t.rows| == 0
    ensures o == Skipped(MissingColumns) <==> |t.rows| > 0 && !(RequiredColumns <= t.columns)
    ensures o == Skipped(NoValidRows) <==>
              && |t.rows| > 0
              && RequiredColumns <= t.columns
              && forall i :: 0 <= i < |t.rows| ==> !AllNumeric(t.rows[i])
    ensures o.Kept? ==> |o.rows| > 0 && o.rows == Contribution(Download(ticker, Fetched(t)), RequiredColumns)
    ensures o.Skipped? ==> Contribution(Download(ticker, Fetched(t)), RequiredColumns) == []
  {
    NoSurvivors(t.rows);
    if |t.rows| == 0 then Skipped(NoData)
    else if !(RequiredColumns <= t.columns) then Skipped(MissingColumns)
    else
      var valid := ValidRows(t.rows);
      if |valid| == 0 then Skipped(NoValidRows) else Kept(Tag(valid, ticker))
  }

  /** A download contributes rows exactly when its table arrived with the
      required columns and holds an all-numeric row; every contributed row
      carries the download's ticker and one of its valid rows. */
  lemma ContributionShape(d: Download, required: set<string>)
    ensures Contribution(d, required) != [] <==>
              d.fetch.Fetched? && required <= d.fetch.table.columns && ValidRows(d.fetch.table.rows) != []
    ensures forall x :: x in Contribution(d, required) ==>
              x.ticker == d.ticker && d.fetch.Fetched? && x.price in ValidRows(d.fetch.table.rows)
  {
    var c := Contribution(d, required);
    if d.fetch.Fetched? && required <= d.fetch.table.columns {
      var v := ValidRows(d.fetch.table.rows);
      assert |PricesOf(c)| == |c|;
      forall x | x in c
        ensures x.price in v
      {
        var k :| 0 <= k < |c| && c[k] == x;
        assert PricesOf(c)[k] == x.price;
      }
    }
  }

  /** Every row of the concatenated contributions comes from a download with
      the same ticker, and is one of that download's valid rows. */
  lemma FlattenedTags(ds: seq<Download>, required: set<string>)
    ensures forall x :: x in Flatten(Contributions(ds, required)) ==>
              exists i :: 0 <= i < |ds| && ds[i].ticker == x.ticker && ds[i].fetch.Fetched?
                          && x.price in ValidRows(ds[i].fetch.table.rows)
  {
    var cs := Contributions(ds, required);
    forall x | x in Flatten(cs)
      ensures exists i :: 0 <= i < |ds| && ds[i].ticker == x.ticker && ds[i].fetch.Fetched?
                          && x.price in ValidRows(ds[i].fetch.table.rows)
    {
      var i :| 0 <= i < |cs| && x in cs[i];
      ContributionShape(ds[i], required);
    }
  }

  /** The concatenated contributions are empty exactly when no download contributes. */
  lemma FlattenedEmpty(ds: seq<Download>, required: set<string>)
    ensures Flatten(Contributions(ds, required)) == [] <==>
              forall i :: 0 <= i < |ds| ==> Contribution(ds[i], required) == []
  {
    var cs := Contributions(ds, required);
    forall i | 0 <= i < |ds|
      ensures |Flatten(cs)| >= |Contribution(ds[i], required)|
    {
      TotalRowsCovers(cs, i);
    }
    assert |Flatten(cs)| > 0 ==> Flatten(cs)[0] in Flatten(cs);
  }

  /** The tickers present in the concatenated contributions are exactly those
      of the downloads that contribute a row. */
  lemma FlattenedTickers(ds: seq<Download>, required: set<string>, ticker: string)
    ensures ticker in Tickers(Flatten(Contributions(ds, required))) <==>
              exists i :: 0 <= i < |ds| && ds[i].ticker == ticker && Contribution(ds[i], required) != []
  {
    var cs := Contributions(ds, required);
    var all := Flatten(cs);
    if ticker in Tickers(all) {
      var k :| 0 <= k < |all| && all[k].ticker == ticker;
      assert all[k] in all;
      var i :| 0 <= i < |cs| && all[k] in cs[i];
      ContributionShape(ds[i], required);
    }
    if exists i :: 0 <= i < |ds| && ds[i].ticker == ticker && Contribution(ds[i], required) != [] {
      var i :| 0 <= i < |ds| && ds[i].ticker == ticker && Contribution(ds[i], required) != [];
      var x := cs[i][0];
      ContributionShape(ds[i], required);
      assert x in cs[i];
      assert x in all;
      var k :| 0 <= k < |all| && all[k] == x;
    }
  }

  /** Tickers that differ pairwise. */
  predicate DistinctTickers(ds: seq<Download>)
  {
    forall i, j :: 0 <= i < j < |ds| ==> ds[i].ticker != ds[j].ticker
  }

  /** With distinct tickers, selecting one ticker from the concatenated
      contributions gives back that download's contribution, in order. */
  lemma {:induction false} FlattenedSelect(ds: seq<Download>, required: set<string>, i: nat)
    requires DistinctTickers(ds)
    requires i < |ds|
    ensures Select(Flatten(Contributions(ds, required)), ds[i].ticker) == Contribution(ds[i], required)
  {
    var cs := Contributions(ds, required);
    var later := Contributions(ds[1..], required);
    var t := ds[i].ticker;
    assert cs[1..] == later;
    assert Flatten(cs) == cs[0] + Flatten(later);
    SelectAppend(cs[0], Flatten(later), t);
    ContributionShape(ds[0], required);
    SelectUniform(cs[0], ds[0].ticker, t);
    if i == 0 {
      LaterTickersAbsent(ds, required);
    } else {
      FlattenedSelect(ds[1..], required, i - 1);
      assert ds[1..][i - 1] == ds[i];
    }
  }

  /** With distinct tickers, the first download's ticker is absent from what the others contribute. */
  lemma LaterTickersAbsent(ds: seq<Download>, required: set<string>)
    requires DistinctTickers(ds)
    requires |ds| > 0
    ensures Select(Flatten(Contributions(ds[1..], required)), ds[0].ticker) == []
  {
    var rest := Flatten(Contributions(ds[1..], required));
    FlattenedTags(ds[1..], required);
    forall k | 0 <= k < |rest|
      ensures rest[k].ticker != ds[0].ticker
    {
      assert rest[k] in rest;
      var j :| 0 <= j < |ds[1..]| && ds[1..][j].ticker == rest[k].ticker;
      assert ds[1..][j] == ds[j + 1];
    }
    SelectAbsent(rest, ds[0].ticker);
  }
}

=== FILE: prices.dfy ===
/**
 The data model shared by the three pipeline scripts: raw price tables as
 the history fetch returns them (flattened to single-level column names),
 validated rows, and rows tagged with their ticker.
 */
module Prices {

  /** One price cell after numeric coercion: a number, or the missing marker
      that coercion leaves wherever a value could not be read as a number. */
  datatype Cell = Num(value: real) | Bad

  /** A calendar date, as a day number. */
  type Date = int

  /** One dated row of a fetched table, before validation. */
  datatype RawRow = RawRow(date: Date, open: Cell, high: Cell, low: Cell, close: Cell)

  /** A fetched table: the column names it carries and its rows in fetch order. */
  datatype RawTable = RawTable(columns: set<string>, rows: seq<RawRow>)

  /** A row whose four prices are all numbers. */
  datatype PriceRow = PriceRow(date: Date, open: real, high: real, low: real, close: real)

  /** A validated row with the ticker column added. */
  datatype TaggedRow = TaggedRow(price: PriceRow, ticker: string)

  /** The columns that are coerced to numbers and must all be present in a kept row. */
  const PriceColumns: set<string> := {"Open", "High", "Low", "Close"}

  /** The columns a table must carry before the skipping scripts will use it. */
  const RequiredColumns: set<string> := {"Date"} + PriceColumns

  /** Drops the ticker column. */
  function PricesOf(rows: seq<TaggedRow>): seq<PriceRow>
  {
    seq(|rows|, k requires 0 <= k < |rows| => rows[k].price)
  }
}

=== FILE: progetto.dfy ===
/**
 The progettoinformaticacompleto.py pipeline: no empty-table or column
 checks and no exception handler. Every fetched table is appended, even when
 no row survives; a fetch that raises or a missing price column ends the
 run; concatenating an empty ticker list ends it too. Each ticker is drawn
 with split-wick candles in date order.
 */
module ProgettoCompleto {
  import opened Results
  import opened Prices
  import opened Rows
  import opened Consolidation
  import opened Candles
  import opened Downloads
  import ProvaClaude

  /** A download the script can process without raising: a table arrived
      and it carries the four price columns. */
  predicate Usable(d: Download)
  {
    d.fetch.Fetched? && PriceColumns <= d.fetch.table.columns
  }

  /** The error an unusable download raises. */
  function FailureOf(d: Download): Fatal
  {
    if d.fetch.Raised? then UncaughtFetchError(d.ticker) else MissingPriceColumn(d.ticker)
  }

  /** `e` is the error of the first unusable download, in ticker order. */
  predicate FirstFailure(ds: seq<Download>, e: Fatal)
  {
    exists i :: 0 <= i < |ds| && !Usable(ds[i]) && e == FailureOf(ds[i])
                && forall j :: 0 <= j < i ==> Usable(ds[j])
  }

  /** One pass of the loop: coerce, drop and tag, with no emptiness check,
      so the table may come back empty. */
  function NormalizeTicker(d: Download): (r: Result<seq<TaggedRow>, Fatal>)
    ensures r.Ok? <==> Usable(d)
    ensures r.Err? ==> r.error == FailureOf(d)
    ensures r.Ok? ==> PricesOf(r.value) == ValidRows(d.fetch.table.rows)
    ensures r.Ok? ==> forall k :: 0 <= k < |r.value| ==> r.value[k].ticker == d.ticker
  {
    match d.fetch
    case Raised => Err(UncaughtFetchError(d.ticker))
    case Fetched(t) =>
      if !(PriceColumns <= t.columns) then Err(MissingPriceColumn(d.ticker))
      else Ok(Tag(ValidRows(t.rows), d.ticker))
  }

  /** The list of appended tables: one per ticker, empty ones included, each
      exactly its download's contribution; or the first error raised. */
  function Collect(ds: seq<Download>): (r: Result<seq<seq<TaggedRow>>, Fatal>)
    ensures r.Ok? <==> forall i :: 0 <= i < |ds| ==> Usable(ds[i])
    ensures r.Ok? ==> r.value == Contributions(ds, PriceColumns)
    ensures r.Err? ==> FirstFailure(ds, r.error)
  {
    if |ds| == 0 then Ok([])
    else
      assert forall i :: 1 <= i < |ds| ==> ds[1..][i - 1] == ds[i];
      match NormalizeTicker(ds[0])
      case Err(e) => Err(e)
      case Ok(rows) =>
        match Collect(ds[1..])
        case Err(e) =>
          assert FirstFailure(ds[1..], e);
          var i :| 0 <= i < |ds[1..]| && !Usable(ds[1..][i]) && e == FailureOf(ds[1..][i])
                   && forall j :: 0 <= j < i ==> Usable(ds[1..][j]);
          assert !Usable(ds[i + 1]);
          Err(e)
        case Ok(tables) =>
          assert [rows] + tables == Contributions(ds, PriceColumns);
          Ok([rows] + tables)
  }

  /** Some table arrived with a Date column, so the concatenation has one. */
  predicate SomeDateColumn(ds: seq<Download>)
  {
    exists i :: 0 <= i < |ds| && ds[i].fetch.Fetched? && "Date" in ds[i].fetch.table.columns
  }

  /** The run up to the written dataset. It succeeds exactly when there is at
      least one ticker, every download is usable and some table has a Date
      column for the conversion after concatenation; it then holds every
      contribution in ticker order, possibly none at all. */
  function Run(ds: seq<Download>): (r: Result<seq<TaggedRow>, Fatal>)
    ensures r.Ok? <==> |ds| > 0 && (forall i :: 0 <= i < |ds| ==> Usable(ds[i])) && SomeDateColumn(ds)
    ensures |ds| == 0 ==> r == Err(NothingToConcatenate)
    ensures r.Err? && !(forall i :: 0 <= i < |ds| ==> Usable(ds[i])) ==> FirstFailure(ds, r.error)
    ensures |ds| > 0 && (forall i :: 0 <= i < |ds| ==> Usable(ds[i])) && !SomeDateColumn(ds) ==>
              r == Err(MissingDateColumn)
    ensures r.Ok? ==> r.value == Flatten(Contributions(ds, PriceColumns))
    ensures r.Ok? ==> |r.value| == TotalRows(Contributions(ds, PriceColumns))
  {
    match Collect(ds)
    case Err(e) => Err(e)
    case Ok(tables) =>
      match Concat(tables)
      case None => Err(NothingToConcatenate)
      case Some(all) =>
        if SomeDateColumn(ds) then Ok(all) else Err(MissingDateColumn)
  }

  /** Every row of the dataset carries the ticker it was fetched for and is
      one of that ticker's validated rows. */
  lemma RunTags(ds: seq<Download>)
    requires Run(ds).Ok?
    ensures forall x :: x in Run(ds).value ==>
              exists i :: 0 <= i < |ds| && ds[i].ticker == x.ticker && ds[i].fetch.Fetched?
                          && x.price in ValidRows(ds[i].fetch.table.rows)
  {
    FlattenedTags(ds, PriceColumns);
  }

  /** A ticker is drawn exactly when one of its rows survived: a ticker
      appended with no rows never reaches the charts. */
  lemma RunTickers(ds: seq<Download>, ticker: string)
    requires Run(ds).Ok?
    ensures ticker in Tickers(Run(ds).value) <==>
              exists i :: 0 <= i < |ds| && ds[i].ticker == ticker && ValidRows(ds[i].fetch.table.rows) != []
  {
    FlattenedTickers(ds, PriceColumns, ticker);
    forall i | 0 <= i < |ds|
      ensures Contribution(ds[i], PriceColumns) != [] <==> ValidRows(ds[i].fetch.table.rows) != []
    {
      ContributionShape(ds[i], PriceColumns);
    }
  }

  /** When every table arrived with all required columns and some row is
      valid, this script writes the same dataset as provaclaude.py. */
  lemma AgreesWithProvaClaude(ds: seq<Download>)
    requires forall i :: 0 <= i < |ds| ==> ds[i].fetch.Fetched? && RequiredColumns <= ds[i].fetch.table.columns
    requires ProvaClaude.Run(ds).Ok?
    ensures Run(ds) == ProvaClaude.Run(ds)
  {
    assert Contributions(ds, PriceColumns) == Contributions(ds, RequiredColumns);
  }

  /** Where the two scripts part: with usable tables, one of them with a
      Date column, but no valid row at all, provaclaude.py stops with its
      fatal error while this script writes an empty dataset. */
  lemma WritesEmptyDataset(ds: seq<Download>)
    requires |ds| > 0
    requires SomeDateColumn(ds)
    requires forall i :: 0 <= i < |ds| ==> Usable(ds[i]) && ValidRows(ds[i].fetch.table.rows) == []
    ensures Run(ds) == Ok([])
    ensures ProvaClaude.Run(ds) == Err(NoValidData)
  {
    FlattenedEmpty(ds, PriceColumns);
    forall i | 0 <= i < |ds|
      ensures Contribution(ds[i], RequiredColumns) == []
    {
      ContributionShape(ds[i], RequiredColumns);
    }
  }

  /** Reads the rows back from a chart. */
  function RowsOfChart(c: seq<SplitCandle>): seq<PriceRow>
  {
    seq(|c|, k requires 0 <= k < |c| => RowOfSplitCandle(c[k]))
  }

  /** The chart of one ticker: its rows sorted by date, one split-wick candle
      each. The candles run in date order and are, row for row, a
      rearrangement of the ticker's slice of the dataset. */
  function Chart(dataset: seq<TaggedRow>, ticker: string): (c: seq<SplitCandle>)
    ensures |c| == |Select(dataset, ticker)|
    ensures forall i, j :: 0 <= i < j < |c| ==> c[i].date <= c[j].date
    ensures multiset(RowsOfChart(c)) == multiset(PricesOf(Select(dataset, ticker)))
    ensures forall k :: 0 <= k < |c| ==>
              (c[k].body.color == Green <==> RowOfSplitCandle(c[k]).close >= RowOfSplitCandle(c[k]).open)
    ensures forall k :: 0 <= k < |c| ==> c[k] == SplitCandleOf(RowOfSplitCandle(c[k]))
  {
    var rows := SortByDate(PricesOf(Select(dataset, ticker)));
    assert |rows| == |PricesOf(Select(dataset, ticker))| by {
      assert |multiset(rows)| == |multiset(PricesOf(Select(dataset, ticker)))|;
    }
    var c := seq(|rows|, k requires 0 <= k < |rows| => SplitCandleOf(rows[k]));
    assert forall k :: 0 <= k < |c| ==> RowOfSplitCandle(c[k]) == rows[k];
    assert RowsOfChart(c) == rows;
    c
  }
}

=== FILE: provaclaude.dfy ===
/**
 The provaclaude.py pipeline: every per-ticker failure is caught and the
 ticker skipped; the run fails only when no ticker survives; each surviving
 ticker is drawn with single-wick candles in date order.
 */
module ProvaClaude {
  import opened Results
  import opened Prices
  import opened Rows
  import opened Consolidation
  import opened Candles
  import opened Downloads

  /** One pass of the per-ticker loop: a raised fetch is caught and skipped,
      then the table checks run. A kept ticker adds exactly its contribution,
      at least one row; a skipped one would have added nothing. */
  function NormalizeTicker(d: Download): (o: Outcome)
    ensures o == Skipped(FetchFailed) <==> d.fetch.Raised?
    ensures o.Kept? ==> |o.rows| > 0 && o.rows == Contribution(d, RequiredColumns)
    ensures o.Skipped? ==> Contribution(d, RequiredColumns) == []
  {
    match d.fetch
    case Raised => Skipped(FetchFailed)
    case Fetched(t) => NormalizeTable(d.ticker, t)
  }

  /** The list of kept tables: one per kept ticker, in ticker order, each
      exactly that ticker's contribution, none of them empty, and together
      holding exactly the rows the downloads contribute. */
  function Collect(ds: seq<Download>): (tables: seq<seq<TaggedRow>>)
    ensures tables == NonEmptyTables(Contributions(ds, RequiredColumns))
    ensures |tables| <= |ds|
    ensures forall i :: 0 <= i < |tables| ==> |tables[i]| > 0
    ensures Flatten(tables) == Flatten(Contributions(ds, RequiredColumns))
  {
    if |ds| == 0 then []
    else
      var rest := Collect(ds[1..]);
      var cs := Contributions(ds, RequiredColumns);
      assert cs[1..] == Contributions(ds[1..], RequiredColumns);
      assert Flatten(cs) == cs[0] + Flatten(cs[1..]);
      match NormalizeTicker(ds[0])
      case Kept(rows) =>
        assert ([rows] + rest)[1..] == rest;
        [rows] + rest
      case Skipped(_) => rest
  }

  /** The run up to the written dataset: fatal exactly when no download
      contributes a row, and otherwise the concatenation of every
      contribution in ticker order. */
  function Run(ds: seq<Download>): (r: Result<seq<TaggedRow>, Fatal>)
    ensures r.Err? <==> forall i :: 0 <= i < |ds| ==> Contribution(ds[i], RequiredColumns) == []
    ensures r.Err? ==> r.error == NoValidData
    ensures r.Ok? ==> r.value == Flatten(Contributions(ds, RequiredColumns))
  {
    var tables := Collect(ds);
    FlattenedEmpty(ds, RequiredColumns);
    if |tables| == 0 then Err(NoValidData)
    else
      assert tables[0][0] in tables[0];
      Ok(Concat(tables).value)
  }

  /** Every row of the dataset carries the ticker it was fetched for and is
      one of that ticker's validated rows. */
  lemma RunTags(ds: seq<Download>)
    requires Run(ds).Ok?
    ensures forall x :: x in Run(ds).value ==>
              exists i :: 0 <= i < |ds| && ds[i].ticker == x.ticker && ds[i].fetch.Fetched?
                          && x.price in ValidRows(ds[i].fetch.table.rows)
  {
    FlattenedTags(ds, RequiredColumns);
  }

  /** With distinct tickers, a ticker's slice of the dataset is its own
      validated rows, in fetch order, when it was kept and nothing otherwise. */
  lemma RunSlice(ds: seq<Download>, i: nat)
    requires DistinctTickers(ds)
    requires i < |ds|
    requires Run(ds).Ok?
    ensures NormalizeTicker(ds[i]).Kept? ==> Select(Run(ds).value, ds[i].ticker) == NormalizeTicker(ds[i]).rows
    ensures NormalizeTicker(ds[i]).Skipped? ==> Select(Run(ds).value, ds[i].ticker) == []
  {
    FlattenedSelect(ds, RequiredColumns, i);
  }

  /** The tickers drawn are exactly those kept by the per-ticker loop. */
  lemma RunTickers(ds: seq<Download>, ticker: string)
    requires Run(ds).Ok?
    ensures ticker in Tickers(Run(ds).value) <==>
              exists i :: 0 <= i < |ds| && ds[i].ticker == ticker && NormalizeTicker(ds[i]).Kept?
  {
    FlattenedTickers(ds, RequiredColumns, ticker);
    if exists i :: 0 <= i < |ds| && ds[i].ticker == ticker && NormalizeTicker(ds[i]).Kept? {
      var i :| 0 <= i < |ds| && ds[i].ticker == ticker && NormalizeTicker(ds[i]).Kept?;
      assert Contribution(ds[i], RequiredColumns) != [];
    }
  }

  /** Reads the rows back from a chart. */
  function RowsOfChart(c: seq<Candle>): seq<PriceRow>
  {
    seq(|c|, k requires 0 <= k < |c| => RowOfCandle(c[k]))
  }

  /** The chart of one ticker: its rows sorted by date, one single-wick
      candle each. The candles run in date order and are, row for row, a
      rearrangement of the ticker's slice of the dataset. */
  function Chart(dataset: seq<TaggedRow>, ticker: string): (c: seq<Candle>)
    ensures |c| == |Select(dataset, ticker)|
    ensures forall i, j :: 0 <= i < j < |c| ==> c[i].date <= c[j].date
    ensures multiset(RowsOfChart(c)) == multiset(PricesOf(Select(dataset, ticker)))
    ensures forall k :: 0 <= k < |c| ==>
              (c[k].body.color == Green <==> RowOfCandle(c[k]).close >= RowOfCandle(c[k]).open)
    ensures forall k :: 0 <= k < |c| ==> c[k] == CandleOf(RowOfCandle(c[k]))
  {
    var rows := SortByDate(PricesOf(Select(dataset, ticker)));
    assert |rows| == |PricesOf(Select(dataset, ticker))| by {
      assert |multiset(rows)| == |multiset(PricesOf(Select(dataset, ticker)))|;
    }
    var c := seq(|rows|, k requires 0 <= k < |rows| => CandleOf(rows[k]));
    assert forall k :: 0 <= k < |c| ==> RowOfCandle(c[k]) == rows[k];
    assert RowsOfChart(c) == rows;
    c
  }

  /** A ticker with a single row in the dataset is drawn as that row's
      one candle. */
  lemma OneRowChart(row: PriceRow, ticker: string)
    ensures Chart([TaggedRow(row, ticker)], ticker) == [CandleOf(row)]
  {
    var tagged := [TaggedRow(row, ticker)];
    assert Select(tagged, ticker) == tagged by {
      assert forall x :: x in Select(tagged, ticker) <==> x in tagged;
    }
    assert PricesOf(tagged) == [row];
    var c := Chart(tagged, ticker);
    assert multiset(RowsOfChart(c)) == multiset([row]);
    assert RowsOfChart(c) == [RowOfCandle(c[0])];
    assert RowOfCandle(c[0]) in multiset([row]);
  }
}

/** Worked examples of the provaclaude.py pipeline on small inputs. */
module ProvaClaudeExamples {
  import opened Results
  import opened Prices
  import opened Downloads
  import opened Candles
  import Rows
  import Consolidation
  import ProvaClaude

  /** "AAA" has one valid row and one whose Open did not coerce; "BBB" has
      only invalid rows. The dataset is the one valid row, tagged "AAA",
      and its candle is green. */
  lemma MixedTickers()
    ensures ProvaClaude.Run([
              Download("AAA", Fetched(RawTable(RequiredColumns, [
                RawRow(0, Num(10.0), Num(12.0), Num(9.0), Num(11.0)),
                RawRow(1, Bad, Num(13.0), Num(10.0), Num(12.0))]))),
              Download("BBB", Fetched(RawTable(RequiredColumns, [
                RawRow(0, Bad, Bad, Bad, Bad)])))])
            == Ok([TaggedRow(PriceRow(0, 10.0, 12.0, 9.0, 11.0), "AAA")])
    ensures ProvaClaude.Chart([TaggedRow(PriceRow(0, 10.0, 12.0, 9.0, 11.0), "AAA")], "AAA")
            == [CandleOf(PriceRow(0, 10.0, 12.0, 9.0, 11.0))]
    ensures CandleOf(PriceRow(0, 10.0, 12.0, 9.0, 11.0)).body.color == Green
  {
    var row := PriceRow(0, 10.0, 12.0, 9.0, 11.0);
    var aaa := [RawRow(0, Num(10.0), Num(12.0), Num(9.0), Num(11.0)), RawRow(1, Bad, Num(13.0), Num(10.0), Num(12.0))];
    var bbb := [RawRow(0, Bad, Bad, Bad, Bad)];
    var ds := [Download("AAA", Fetched(RawTable(RequiredColumns, aaa))), Download("BBB", Fetched(RawTable(RequiredColumns, bbb)))];
    assert aaa[..1] == [aaa[0]];
    assert [aaa[0]][..0] == [];
    assert bbb[..0] == [];
    assert Rows.ValidRows(aaa) == [row];
    assert Rows.ValidRows(bbb) == [];
    var tagged := [TaggedRow(row, "AAA")];
    assert Rows.Tag([row], "AAA") == tagged;
    assert ProvaClaude.NormalizeTicker(ds[0]) == Kept(tagged);
    assert ProvaClaude.NormalizeTicker(ds[1]).Skipped?;
    assert ds[1..][1..] == [];
    assert ProvaClaude.Collect(ds) == [tagged];
    assert Consolidation.Flatten([tagged]) == tagged;
    ProvaClaude.OneRowChart(row, "AAA");
  }

  /** When every ticker is skipped the run stops before any dataset exists. */
  lemma NothingSurvives()
    ensures ProvaClaude.Run([Download("AAA", Raised), Download("BBB", Fetched(RawTable({}, [])))])
            == Err(NoValidData)
  {
  }
}

=== FILE: results.dfy ===
/** Failure-carrying wrappers used across the model. */
module Results {

  /** A value that may be absent. */
  datatype Option<+T> = None | Some(value: T)

  /** The outcome of a whole run: a value, or the fatal error that ended it. */
  datatype Result<+T, +E> = Ok(value: T) | Err(error: E)
}

=== FILE: rows.dfy ===
/**
 The row normalizer: numeric coercion of the four price columns, dropping
 of every row where any of them failed, and tagging of the survivors.
 */
module Rows {
  import opened Prices

  /** A row survives the drop step exactly when all four price cells coerced to numbers. */
  predicate AllNumeric(r: RawRow)
  {
    r.open.Num? && r.high.Num? && r.low.Num? && r.close.Num?
  }

  /** The validated form of a surviving row: its numbers, unchanged. */
  function Convert(r: RawRow): PriceRow
    requires AllNumeric(r)
  {
    PriceRow(r.date, r.open.value, r.high.value, r.low.value, r.close.value)
  }

  /** The rows kept by the drop step, in their original order: never more
      than the input, and a row is kept exactly when it is the unrepaired
      conversion of an all-numeric input row. */
  function ValidRows(rows: seq<RawRow>): (v: seq<PriceRow>)
    ensures |v| <= |rows|
    ensures forall p :: p in v <==> exists i :: 0 <= i < |rows| && AllNumeric(rows[i]) && Convert(rows[i]) == p
  {
    if |rows| == 0 then []
    else
      var kept := ValidRows(rows[..|rows| - 1]);
      var last := rows[|rows| - 1];
      if AllNumeric(last) then kept + [Convert(last)] else kept
  }

  /** The positions of the rows the drop step keeps: strictly increasing,
      exactly the all-numeric rows, and the k-th kept row is the unrepaired
      conversion of the row at the k-th position. */
  function Survivors(rows: seq<RawRow>): (idx: seq<nat>)
    ensures |idx| == |ValidRows(rows)|
    ensures forall k :: 0 <= k < |idx| ==>
              idx[k] < |rows| && AllNumeric(rows[idx[k]]) && ValidRows(rows)[k] == Convert(rows[idx[k]])
    ensures forall k, l :: 0 <= k < l < |idx| ==> idx[k] < idx[l]
    ensures forall i :: 0 <= i < |rows| && AllNumeric(rows[i]) ==> i in idx
  {
    if |rows| == 0 then []
    else
      var init := rows[..|rows| - 1];
      var kept := Survivors(init);
      var idx := if AllNumeric(rows[|rows| - 1]) then kept + [|rows| - 1] else kept;
      SurvivorsStep(rows, kept, ValidRows(init), ValidRows(rows), idx);
      idx
  }

  /** One step of the position list: the positions kept in all but the last
      row, followed by the last position when that row is all-numeric. */
  lemma SurvivorsStep(rows: seq<RawRow>, kept: seq<nat>, vInit: seq<PriceRow>, v: seq<PriceRow>, idx: seq<nat>)
    requires |rows| > 0
    requires |kept| == |vInit|
    requires forall k :: 0 <= k < |kept| ==>
               kept[k] < |rows| - 1 && AllNumeric(rows[..|rows| - 1][kept[k]])
               && vInit[k] == Convert(rows[..|rows| - 1][kept[k]])
    requires forall k, l :: 0 <= k < l < |kept| ==> kept[k] < kept[l]
    requires forall i :: 0 <= i < |rows| - 1 && AllNumeric(rows[..|rows| - 1][i]) ==> i in kept
    requires v == if AllNumeric(rows[|rows| - 1]) then vInit + [Convert(rows[|rows| - 1])] else vInit
    requires idx == if AllNumeric(rows[|rows| - 1]) then kept + [|rows| - 1] else kept
    ensures |idx| == |v|
    ensures forall k :: 0 <= k < |idx| ==>
              idx[k] < |rows| && AllNumeric(rows[idx[k]]) && v[k] == Convert(rows[idx[k]])
    ensures forall k, l :: 0 <= k < l < |idx| ==> idx[k] < idx[l]
    ensures forall i :: 0 <= i < |rows| && AllNumeric(rows[i]) ==> i in idx
  {
    var init := rows[..|rows| - 1];
    forall k | 0 <= k < |kept|
      ensures AllNumeric(rows[kept[k]]) && vInit[k] == Convert(rows[kept[k]])
    {
      assert init[kept[k]] == rows[kept[k]];
    }
    forall i | 0 <= i < |rows| - 1 && AllNumeric(rows[i])
      ensures i in kept
    {
      assert init[i] == rows[i];
    }
  }

  /** Nothing survives the drop step exactly when no row is all-numeric. */
  lemma NoSurvivors(rows: seq<RawRow>)
    ensures ValidRows(rows) == [] <==> forall i :: 0 <= i < |rows| ==> !AllNumeric(rows[i])
  {
    var idx := Survivors(rows);
    if ValidRows(rows) != [] {
      assert AllNumeric(rows[idx[0]]);
    }
  }

  /** Dropping distributes over concatenation, so the drop step never reorders rows. */
  lemma {:induction false} ValidRowsAppend(a: seq<RawRow>, b: seq<RawRow>)
    ensures ValidRows(a + b) == ValidRows(a) + ValidRows(b)
    decreases |b|
  {
    if |b| == 0 {
      assert a + b == a;
    } else {
      var b' := b[..|b| - 1];
      assert (a + b)[..|a + b| - 1] == a + b';
      assert (a + b)[|a + b| - 1] == b[|b| - 1];
      assert b[..|b| - 1] == b';
      ValidRowsAppend(a, b');
    }
  }

  /** Tags every validated row with the ticker it was fetched for. */
  function Tag(v: seq<PriceRow>, ticker: string): (r: seq<TaggedRow>)
    ensures PricesOf(r) == v
    ensures forall k :: 0 <= k < |r| ==> r[k].ticker == ticker
  {
    seq(|v|, k requires 0 <= k < |v| => TaggedRow(v[k], ticker))
  }
}

=== FILE: scrapingandgraph.dfy ===
/**
 The scrapingandgraph.py pipeline: the same table checks and fatal guard as
 provaclaude.py, but with no exception handler around the fetch, so a fetch
 that raises ends the whole run. Its drawing is left to a library call.
 */
module ScrapingAndGraph {
  import opened Results
  import opened Prices
  import opened Consolidation
  import opened Downloads
  import ProvaClaude

  /** `e` reports the first download, in ticker order, whose fetch raised. */
  predicate FirstRaised(ds: seq<Download>, e: Fatal)
  {
    exists i :: 0 <= i < |ds| && ds[i].fetch.Raised? && e == UncaughtFetchError(ds[i].ticker)
                && forall j :: 0 <= j < i ==> ds[j].fetch.Fetched?
  }

  /** The per-ticker loop: stopped by the first raised fetch; otherwise it
      keeps exactly the tables the handled loop of provaclaude.py keeps. */
  function Collect(ds: seq<Download>): (r: Result<seq<seq<TaggedRow>>, Fatal>)
    ensures r.Ok? <==> forall i :: 0 <= i < |ds| ==> ds[i].fetch.Fetched?
    ensures r.Ok? ==> r.value == ProvaClaude.Collect(ds)
    ensures r.Err? ==> FirstRaised(ds, r.error)
  {
    if |ds| == 0 then Ok([])
    else
      match ds[0].fetch
      case Raised => Err(UncaughtFetchError(ds[0].ticker))
      case Fetched(t) =>
        var rest := Collect(ds[1..]);
        assert forall i :: 1 <= i < |ds| ==> ds[1..][i - 1] == ds[i];
        match rest
        case Err(e) =>
          assert FirstRaised(ds[1..], e);
          var i :| 0 <= i < |ds[1..]| && ds[1..][i].fetch.Raised? && e == UncaughtFetchError(ds[1..][i].ticker)
                   && forall j :: 0 <= j < i ==> ds[1..][j].fetch.Fetched?;
          assert ds[i + 1].fetch.Raised?;
          Err(e)
        case Ok(tables) =>
          match NormalizeTable(ds[0].ticker, t)
          case Kept(rows) => Ok([rows] + tables)
          case Skipped(_) => Ok(tables)
  }

  /** The run up to the written dataset: identical to provaclaude.py when
      every fetch returned a table, and ended by the first raised fetch
      otherwise. */
  function Run(ds: seq<Download>): (r: Result<seq<TaggedRow>, Fatal>)
    ensures (forall i :: 0 <= i < |ds| ==> ds[i].fetch.Fetched?) ==> r == ProvaClaude.Run(ds)
    ensures (exists i :: 0 <= i < |ds| && ds[i].fetch.Raised?) ==> r.Err? && FirstRaised(ds, r.error)
  {
    match Collect(ds)
    case Err(e) => Err(e)
    case Ok(tables) =>
      if |tables| == 0 then Err(NoValidData) else Ok(Concat(tables).value)
  }
}
